=== FILE: README.md ===
# Keywi local secure storage, modelled in Dafny

This project models the password-gated encrypted key-value store of the Keywi
browser extension (`background/LocalSecureStorage.js`), together with the parts
of `background/Crypto.js` it relies on.

The user's passphrase is turned into a 256-bit AES-CBC key with PBKDF2-SHA-512.
The salt is kept in storage, and the iteration count is `max(5000, setting)`.
Each value is stored encrypted under that key as `{data, nonce, verifier}`:
- the nonce is fresh random text and also serves as the IV;
- the verifier is the nonce encrypted under the key, with the nonce as IV.

A value is decrypted only after its verifier decrypts back to its nonce. A dummy
marker `{nonce, verifier}` under the name `encryption_key_test` tells a
store that was set up before (so it must be unlocked) from a new one (which gets
a new passphrase). `reencrypt` re-keys the whole store under a new passphrase
and salt.

Modules, leaves first:

- `Results` (`results.dfy`): `Option`, `Result` and the failure kinds.
- `JsNumber` (`js_number.dfy`): `Number.parseInt(text, 10)`, to the letter of
  ECMAScript (white space, sign, longest digit run, `NaN`).
- `Storage` (`storage.dfy`): the shared persistent map (`browser.storage.local`)
  as an immutable `map<string, Entry>`.
- `Crypto` (`crypto.dfy`): the cipher and PBKDF2 as abstract function values in
  `Primitives`. The round-trip law `decrypt(encrypt(x, k, iv), k, iv) == x` is
  the predicate `RoundTrip`, and lemmas that need it take it as a precondition.
  This module also holds the verifier protocol, salt selection, the iteration
  count and `deriveKey`.
- `LocalSecureStorage` (`local_secure_storage.dfy`): the store state
  `Store(key, cache, disk)` and every operation as a pure transition that
  returns the new state and the outcome of the operation's promise.
- `Reencrypt` (`reencrypt.dfy`): the re-key operation and its two loops.
- `StoreProperties` (`store_properties.dfy`): lemmas that relate several
  operations, and the session invariant `Unlocked`.

The answer to the passphrase prompt, the new salt bytes and the nonces each
operation draws are inputs, bundled in `Env`. The order in which `Object.keys`
lists storage is an input of `reencrypt`.

Behaviour of the code worth knowing, which the model follows:

- `get` on a record whose verifier fails: `_decrypt` throws inside a `.then`
  callback whose promise nobody returns. The promise of `get` therefore never
  settles, rather than rejecting with an integrity error. This is modelled as
  `Err(Unsettled(KeyWrong))`.
- The unlock verify callback can also throw: when derivation gave no key, or
  when the marker is missing or unreadable. Then the prompt gets neither
  `accept` nor `reject`, and unlocking never settles (`Unsettled`).
- `deriveKey` catches a failure of WebCrypto's `deriveKey` or `exportKey` and
  resolves with no key. Setup then rejects when `generateVerifier(undefined)`
  throws. By then the new salt has already been written.
- Unlocking with no salt stored writes a new salt before the key is derived.
- `reencrypt` is not transactional. Values already decrypted are deleted before
  the new passphrase is asked for. A later `_decrypt` failure, or a dismissed
  prompt, loses them from storage.
- Nothing reserves the name `encryption_key_test`. `set` under that name
  overwrites the marker. Unlocking still works, because the record carries a
  verifier. `reencrypt` then drops that value. `delete` under that name removes
  the marker, and the next session sets up a new passphrase.
- A stored value named `__proto__` is lost by `reencrypt`. The first loop
  decrypts and deletes it, but `dataToSave["__proto__"] = text` goes to the
  prototype setter, which ignores a string. So `Object.keys(dataToSave)` never
  lists the name and the value is not set again.
- `delete` does not touch the cache, so `get` keeps returning a deleted value
  for the rest of the session.

## Model

| member | source | states |
|---|---|---|
| `LocalSecureStorage.Slot` | background/LocalSecureStorage.js:15 | every name is stored under `_prefix + name`, and stripping the prefix gives the name back |
| `LocalSecureStorage.SlotOfUserName` | background/LocalSecureStorage.js:247-253 | a prefixed storage key is the slot of its stripped name, as `reencrypt`'s `substr` relies on |
| `LocalSecureStorage.SlotInjective` | background/LocalSecureStorage.js:15-16 | distinct names never share a storage key |
| `LocalSecureStorage.OutsideNamespace` | background/Crypto.js:60 | the salt key and the iteration-setting key lie outside the store's prefix, so no store key collides with them |
| `LocalSecureStorage.Has` | background/LocalSecureStorage.js:144-154 | `has` resolves iff the prefixed key is in storage, rejects with "No such key" otherwise, and returns no new state |
| `LocalSecureStorage.Decrypt` | background/LocalSecureStorage.js:209-230 | a payload is returned if and only if the verifier decrypts to the nonce under the held key and the data decrypts, and it is then exactly the decrypted data; a mismatch throws "key wrong"; every other failure is a cipher-layer throw |
| `LocalSecureStorage.Seal` | background/LocalSecureStorage.js:161-168 | the record `set` writes carries the drawn nonce; under the round-trip law its verifier passes under the key and its data decrypts to the value |
| `LocalSecureStorage.DecryptSeal` | background/LocalSecureStorage.js:161-168 | `_decrypt` under key K of the record `set` writes under K gives back exactly the value |
| `LocalSecureStorage.SetupNewPassword` | background/LocalSecureStorage.js:52-78 | on success, the new salt is stored, the held key is the one the passphrase derives from it, and the marker is `{nonce, encrypt(nonce, key, nonce)}`; on failure (dismissed prompt, no key derived) the held key is unchanged; only the salt and marker keys change |
| `LocalSecureStorage.VerifyCandidate` | background/LocalSecureStorage.js:82-102 | the callback accepts only a key derived from the passphrase that the marker's verifier accepts, and rejects with "wrong key" exactly when the derived key fails the marker check |
| `LocalSecureStorage.UnlockExistingPassword` | background/LocalSecureStorage.js:80-111 | on success the held key passes the marker check and derives from the passphrase; on failure the key is unchanged and the error is a dismissal, a wrong key or a hang; only the salt can change |
| `LocalSecureStorage.UnlockStorage` | background/LocalSecureStorage.js:113-142 | a no-op when a key is held; a key is never newly installed unless the stored marker accepts it; it resolves iff `ready()` holds afterwards; an existing marker is never rewritten |
| `LocalSecureStorage.Set` | background/LocalSecureStorage.js:156-178 | with a key held it always succeeds and keeps the key; on success the cache maps the name to the value and the prefixed key holds the value sealed under the held key with the drawn nonce; on failure cache and key are unchanged |
| `LocalSecureStorage.Write` | background/LocalSecureStorage.js:159-170 | with a key held, `set` caches the value and stores it sealed under that key with the drawn nonce, and touches no other storage key |
| `LocalSecureStorage.Get` | background/LocalSecureStorage.js:180-202 | a cache hit returns the cached value with the state unchanged; otherwise it resolves with exactly what `_decrypt` gives for the stored record whenever that succeeds, and a result comes only from such a record; a missing record rejects with "Not found"; a throwing `_decrypt` never settles; the cache is never filled |
| `LocalSecureStorage.Delete` | background/LocalSecureStorage.js:232-234 | removes the prefixed key and leaves every other key, the cache and the held key unchanged |
| `Crypto.CheckVerifier` | background/LocalSecureStorage.js:216-221 | the verifier check passes exactly when the verifier decrypts, with the nonce as IV, to the nonce |
| `Crypto.GenerateVerifier` | background/Crypto.js:43-52 | the pair keeps the nonce, and under the round-trip law its verifier passes the verifier check under the generating key |
| `Crypto.VerifierDoesNotPinTheKey` | background/Crypto.js:43-52 | the round-trip law alone does not make the verifier check reject other keys: some cipher obeying it accepts a verifier under a second key |
| `Crypto.GetSalt` | background/Crypto.js:54-80 | the salt handed out is always the one stored; overwrite and a missing salt give the new salt; an existing salt is returned with storage unchanged; only an unreadable stored salt fails |
| `Crypto.RoundsSetting` | background/Crypto.js:94-95 | the setting read is the text stored under `password-hash-rounds`, and is absent when nothing is stored there |
| `Crypto.Iterations` | background/Crypto.js:100 | the iteration count is at least 5000; it is 5000 when the setting is missing or not a number; it equals a parsed setting of 5000 or more; any other count is the parsed setting |
| `Crypto.IterationsHonourSetting` | background/Crypto.js:100 | a setting spelling a number n >= 5000 gives exactly n iterations |
| `Crypto.IterationsFloorSetting` | background/Crypto.js:100 | a setting from 0 to 4999, written with or without a minus sign, gives 5000 iterations |
| `Crypto.IterationsNegativeSetting` | background/Crypto.js:100 | every negative setting, of any magnitude, gives 5000 iterations |
| `Crypto.DeriveKey` | background/Crypto.js:82-128 | the key is PBKDF2 of the passphrase over the salt then stored, with the clamped iteration count; a derivation failure resolves with no key; a derived key has 256 bits when PBKDF2 honours the requested length; only the salt key changes |
| `Crypto.DeriveKeyDeterministic` | background/Crypto.js:82-121 | with the salt kept, the derived key depends only on the passphrase, the stored salt and the iteration setting |
| `JsNumber.ParseInt` | background/Crypto.js:100 | `NaN` exactly when no digit follows the leading white space and sign; a negative result only after a leading minus |
| `JsNumber.ParseDecimalText` | background/Crypto.js:100 | the decimal digits of any natural n parse back to n |
| `JsNumber.ParseDecimalPrefix` | background/Crypto.js:100 | `parseInt` stops at the first non-digit after a number |
| `JsNumber.ParseNegativeDecimal` | background/Crypto.js:100 | a leading minus sign negates the parsed value |
| `JsNumber.ParseSkipsLeadingSpace` | background/Crypto.js:100 | leading white space does not change the parse |
| `JsNumber.ParseWithoutDigits` | background/Crypto.js:100 | text without a digit parses as `NaN` |
| `Reencrypt.Gather` | background/LocalSecureStorage.js:243-259 | the first loop deletes only user records it decrypted; if it completes, it has decrypted and deleted every prefixed key but the marker, saving each value under its stripped name except `__proto__`, which the object drops; if it stops, a user record whose `_decrypt` failed is named by the error; it stops exactly when the recorded stop position is short of the end of the key list |
| `Reencrypt.GatherStops` | background/LocalSecureStorage.js:243-259 | a stopped first loop stopped at a user record whose `_decrypt` threw that error, and it deleted only keys listed before that position |
| `Reencrypt.GatherDeletesBeforeStop` | background/LocalSecureStorage.js:249-257 | every user record listed before the stop position was deleted |
| `Reencrypt.UserNames` | background/LocalSecureStorage.js:249-263 | the names re-set are exactly the stripped prefixed keys other than the marker's and `__proto__` |
| `Reencrypt.RestoreAll` | background/LocalSecureStorage.js:261-266 | re-setting keeps the held key, caches and seals every saved value under it, and changes no other storage key |
| `Reencrypt.Reencrypt` | background/LocalSecureStorage.js:241-270 | a stopped re-key leaves the held key and the cache unchanged; a completed one holds a key |
| `Reencrypt.ReencryptCarriesOver` | background/LocalSecureStorage.js:241-270 | a completed re-key keeps the same user keys except `__proto__`, which is lost, each readable under the new key with its old value and cached; the new key is the one the new passphrase derives from the new salt, and the new marker accepts it; nothing else outside the namespace changes |
| `Reencrypt.ReencryptFailureLosesOnlyDecrypted` | background/LocalSecureStorage.js:249-259 | after a stopped re-key, the only entries gone are user records that were decrypted; every other remaining entry except the salt is unchanged |
| `Reencrypt.ReencryptStopsAtFailure` | background/LocalSecureStorage.js:243-259 | when a `_decrypt` exception ends the re-key at position i of the key list, every user record before i is gone from storage, the record at i is still stored, and every key not among the first i is still stored with its old entry |
| `Reencrypt.ReencryptSetupFailure` | background/LocalSecureStorage.js:243-261 | when the new passphrase cannot be set up, the first loop had decrypted every user record and none of them is left in storage |
| `StoreProperties.HasAfterSet` | background/LocalSecureStorage.js:144-178 | after a successful `set`, `has` finds the name |
| `StoreProperties.HasAfterDelete` | background/LocalSecureStorage.js:232-234 | after `delete(k)`, `has(k)` rejects, and `has` of every other name answers as before |
| `StoreProperties.SetThenGetHitsCache` | background/LocalSecureStorage.js:156-202 | a `get` after a `set` is served from the cache: same value, no prompt, no state change |
| `StoreProperties.SetThenGetFromStorage` | background/LocalSecureStorage.js:156-230 | with the cache emptied, `get` decrypts what `set` stored and returns the same value |
| `StoreProperties.DeleteKeepsCachedValue` | background/LocalSecureStorage.js:180-234 | `delete` removes the record, but `get` still returns the value from the cache |
| `StoreProperties.GetWritesNothingWhenReady` | background/LocalSecureStorage.js:180-202 | with a key held, `get` changes no state |
| `StoreProperties.UnlockOpensSession` | background/LocalSecureStorage.js:113-142 | a successful unlock or setup leaves a session whose key derives from the passphrase and passes the marker check |
| `StoreProperties.SetKeepsSession` | background/LocalSecureStorage.js:156-178 | `set` preserves the unlocked-session invariant, even under the reserved marker name |
| `StoreProperties.DeleteKeepsSession` | background/LocalSecureStorage.js:232-234 | `delete` of any name but the marker's preserves the unlocked-session invariant |
| `StoreProperties.RestartUnlocksSameKey` | background/LocalSecureStorage.js:80-111 | after a restart, the session's passphrase unlocks the same key again without writing storage |
| `StoreProperties.WrongPassphraseStaysLocked` | background/LocalSecureStorage.js:93-100 | a passphrase whose key fails the marker check is rejected with "wrong key", and no key is held |
| `StoreProperties.FirstSetSetsUp` | background/LocalSecureStorage.js:52-78 | with no marker, the first `set` sets up the passphrase, stores the marker, leaves an unlocked session and stores a value `get` reads back |
| `StoreProperties.SetSurvivesRestart` | background/LocalSecureStorage.js:156-202 | a value set in a session is read back after a restart by unlocking with the same passphrase |
| `StoreProperties.ReencryptSurvivesRestart` | background/LocalSecureStorage.js:241-270 | after a completed re-key and a restart, the new passphrase unlocks the store and `get` returns each old value other than `__proto__` |

## Left out

- Storage I/O: `browser.storage.local` is a synchronous map. Writes take effect in the order they are issued. Storage errors are not modelled. The `set` calls nobody waits for are treated as completed.
- The passphrase prompts: the prompt UI is not part of this model. Each operation gets one answer, a passphrase or a dismissal. A retry after "wrong key" is a new operation.
- AES-CBC, PBKDF2, base64 and the string/byte conversions are abstract function values. The round-trip law is a precondition, not an axiom. The hash name and key length are passed to the abstract PBKDF2 as the source passes them.
- `Crypto.DeriveKey`: a rejected `importKey` rejects `deriveKey`, because the `.catch` hangs off the chain inside `importKey`'s `.then`. The model has no such rejection: it treats every WebCrypto failure as resolving with no key.
- The JSON encoding of the salt: a stored salt is an entry of bytes, and any other entry counts as unreadable.
- Random generation of nonces (`generateSharedKey`) and salts (`getRandomValues`): these are inputs. The nonce length (`Crypto.keySize`) is not modelled.
- `encrypt` has no randomness of its own. This holds by construction, because the cipher is a mathematical function here, so no lemma states it.
- `LocalSecureStorage.Decrypt`: with no key held, the source passes `null` to the cipher. The model treats that as the cipher throwing.
- `Crypto.Iterations`: `parseInt` results are exact integers. Float rounding above 2^53 and `Infinity` are not modelled.
- `Crypto.RoundsSetting`: storage values other than records, byte arrays and text (a number, a boolean, another JSON value) are not modelled. The source would read a setting stored as the number 12000 as the text "12000" and use 12000 iterations; the model has no such entry.
- `LocalSecureStorage.UnlockExistingPassword`: models one prompt attempt per call. What the prompt does after a rejection is not modelled.
- The constructor `LocalSecureStorage()` only runs `_unlockStorage`, so it is not modelled separately. `ready()` is the predicate `Ready`.
- The `SecureStorage` base-class cache is not part of this model. It is a plain map.
- Concurrent callers unlocking at the same time, and all console logging.
- That the old passphrase stops working after a re-key depends on the cipher rejecting wrong keys. The round-trip law does not imply that (see `Crypto.VerifierDoesNotPinTheKey`), so it is not stated.

=== FILE: crypto.dfy ===
/**
 * The crypto layer of `background/Crypto.js`: the block cipher and the key
 * derivation function as abstract primitives, the verifier protocol, salt
 * selection and the iteration count of the key derivation.
 */
module Crypto {
  import opened Results
  import opened JsNumber
  import opened Storage

  /** Storage key of the salt. */
  const SaltKey: string := "crypto_salt"
  /** Storage key of the user's iteration-count setting. */
  const RoundsKey: string := "password-hash-rounds"
  /** Length in bytes of a freshly generated salt. */
  const SaltLength: nat := 100
  /** Floor of the PBKDF2 iteration count. */
  const MinIterations: int := 5000
  const HashName: string := "SHA-512"
  /** Length in bits of the derived AES-CBC key. */
  const KeyBits: int := 256

  /** Raw key bytes. The source passes keys around as base64 text, which
      `encrypt` and `decryptAsString` decode again before use. */
  type Key = seq<Byte>

  /** The bytes `getRandomValues` writes into a new 100-byte array. */
  type FreshSalt = s: seq<Byte> | |s| == SaltLength witness seq(100, _ => 0 as Byte)

  /**
   * The primitives the source calls into.
   * - `encrypt(text, key, iv)`: AES-CBC of the text under the key with the
   *   decoded `iv`, base64-encoded; deterministic, no randomness of its own.
   * - `decrypt(text, key, iv)`: the inverse; `None` when it throws (text that
   *   does not decode); a wrong key gives some other string.
   * - `pbkdf2(passphrase, salt, iterations, hash, bits)`: the exported
   *   derived key, or `None` when WebCrypto fails.
   */
  datatype Primitives = Primitives(
    encrypt: (string, Key, string) -> string,
    decrypt: (string, Key, string) -> Option<string>,
    pbkdf2: (string, seq<Byte>, int, string, int) -> Option<seq<Byte>>)

  /** Decryption under the same key and IV undoes encryption. */
  ghost predicate RoundTrip(p: Primitives) {
    forall x, k, iv :: p.decrypt(p.encrypt(x, k, iv), k, iv) == Some(x)
  }

  /** A derived key has the number of bits asked for. */
  ghost predicate HonoursLength(p: Primitives) {
    forall pass, salt, n, hash, bits ::
      p.pbkdf2(pass, salt, n, hash, bits).Some? ==> |p.pbkdf2(pass, salt, n, hash, bits).value| * 8 == bits
  }

  /** The verifier pair `[nonce, verifier]` of `generateVerifier`. */
  datatype Verifier = Verifier(nonce: string, verifier: string)

  /** `generateVerifier(key)`: the nonce (fresh random text, given here) encrypted
      under the key with the nonce itself as IV. */
  function GenerateVerifier(p: Primitives, key: Key, nonce: string): (v: Verifier)
    ensures v.nonce == nonce
    ensures RoundTrip(p) ==> CheckVerifier(p, key, v) == Matches
  {
    Verifier(nonce, p.encrypt(nonce, key, nonce))
  }

  datatype Check = Matches | Mismatch | Threw

  /** Decrypts the verifier under a candidate key with the nonce as IV and compares
      the text with the nonce. */
  function CheckVerifier(p: Primitives, key: Key, v: Verifier): (r: Check)
    ensures r == Matches <==> p.decrypt(v.verifier, key, v.nonce) == Some(v.nonce)
    ensures r == Threw <==> p.decrypt(v.verifier, key, v.nonce).None?
  {
    match p.decrypt(v.verifier, key, v.nonce)
    case None => Threw
    case Some(text) => if text == v.nonce then Matches else Mismatch
  }

  /** The verifier is no proof of the key: for a cipher that meets the round-trip
      law, a verifier can check out under a key other than the one that made it. */
  lemma VerifierDoesNotPinTheKey()
    ensures exists p: Primitives, k1: Key, k2: Key, n: string ::
      RoundTrip(p) && k1 != k2 && CheckVerifier(p, k2, GenerateVerifier(p, k1, n)) == Matches
  {
    var p := Primitives((x, k, iv) => x, (x, k, iv) => Some(x), (pass, salt, n, h, b) => None);
    assert RoundTrip(p);
    var k1: Key := [0];
    var k2: Key := [1];
    assert k1 != k2;
    assert CheckVerifier(p, k2, GenerateVerifier(p, k1, "")) == Matches;
  }

  datatype SaltStep = SaltStep(disk: Disk, salt: Result<seq<Byte>>)

  /** `_getSalt(overwrite)`: a new salt is written to storage before it is handed
      out; otherwise the stored one is read back. */
  function GetSalt(disk: Disk, overwrite: bool, newSalt: FreshSalt): (r: SaltStep)
    ensures r.salt.Ok? ==> SaltKey in r.disk && r.disk[SaltKey] == Bytes(r.salt.value)
    ensures overwrite ==> r.salt == Ok(newSalt)
    ensures !overwrite && SaltKey in disk && disk[SaltKey].Bytes? ==> r == SaltStep(disk, Ok(disk[SaltKey].bytes))
    ensures !overwrite && SaltKey !in disk ==> r.salt == Ok(newSalt)
    ensures r.salt.Err? <==> !overwrite && SaltKey in disk && !disk[SaltKey].Bytes?
    ensures r.salt.Err? ==> r == SaltStep(disk, Err(SaltUnreadable))
    ensures AgreeOutside(disk, r.disk, {SaltKey})
  {
    if overwrite || SaltKey !in disk then
      SaltStep(disk[SaltKey := Bytes(newSalt)], Ok(newSalt))
    else
      match disk[SaltKey]
      case Bytes(stored) => SaltStep(disk, Ok(stored))
      case _ => SaltStep(disk, Err(SaltUnreadable))
  }

  /** The text of the iteration-count setting. A record or a byte array under
      this key reads as `NaN`, like a missing one. */
  function RoundsSetting(disk: Disk): (r: Option<string>)
    ensures r.Some? ==> RoundsKey in disk && disk[RoundsKey] == Text(r.value)
    ensures RoundsKey !in disk ==> r.None?
  {
    if RoundsKey in disk && disk[RoundsKey].Text? then Some(disk[RoundsKey].text) else None
  }

  /** A write that leaves the setting's key alone leaves the setting alone. */
  lemma RoundsSettingKept(a: Disk, b: Disk, changed: set<string>)
    requires AgreeOutside(a, b, changed) && RoundsKey !in changed
    ensures RoundsSetting(a) == RoundsSetting(b)
  {
    assert (RoundsKey in a <==> RoundsKey in b) && (RoundsKey in a ==> a[RoundsKey] == b[RoundsKey]);
  }

  /** `Math.max(5000, Number.parseInt(setting, 10) || 0)`. */
  function Iterations(setting: Option<string>): (r: int)
    ensures r >= MinIterations
    ensures r == MinIterations || (setting.Some? && ParseInt(setting.value) == Some(r))
    ensures setting.None? || ParseInt(setting.value).None? ==> r == MinIterations
    ensures setting.Some? && ParseInt(setting.value).Some? && ParseInt(setting.value).value >= MinIterations ==>
              r == ParseInt(setting.value).value
  {
    var parsed := if setting.None? then None else ParseInt(setting.value);
    var n := if parsed.None? then 0 else parsed.value;
    if n > MinIterations then n else MinIterations
  }

  /** A setting that spells out a number of at least 5000 is used as it is. */
  lemma IterationsHonourSetting(n: nat)
    requires n >= MinIterations
    ensures Iterations(Some(DecimalText(n))) == n
  {
    ParseDecimalText(n);
  }

  /** A setting below the floor, or negative, falls back to 5000. */
  lemma IterationsFloorSetting(n: nat)
    requires n < MinIterations
    ensures Iterations(Some(DecimalText(n))) == MinIterations
    ensures Iterations(Some(['-'] + DecimalText(n))) == MinIterations
  {
    ParseDecimalText(n);
    IterationsNegativeSetting(n);
  }

  /** Any negative setting, however large its magnitude, falls back to 5000. */
  lemma IterationsNegativeSetting(n: nat)
    ensures Iterations(Some(['-'] + DecimalText(n))) == MinIterations
  {
    ParseNegativeDecimal(n);
  }

  datatype Derivation = Derivation(disk: Disk, key: Result<Option<Key>>)

  /** The key `deriveKey(passphrase, overwrite)` would produce under these salt
      bytes and this storage's iteration setting. */
  function Pbkdf2Key(p: Primitives, passphrase: string, salt: seq<Byte>, disk: Disk): Option<Key> {
    p.pbkdf2(passphrase, salt, Iterations(RoundsSetting(disk)), HashName, KeyBits)
  }

  /**
   * `deriveKey(passphrase, overwrite)`: choose the salt, read the iteration
   * setting, run PBKDF2 with SHA-512 for a 256-bit AES-CBC key. A WebCrypto
   * failure is caught and logged, so the promise resolves with no key
   * (`Ok(None)`); only an unreadable stored salt rejects it.
   */
  function DeriveKey(p: Primitives, disk: Disk, passphrase: string, overwrite: bool, newSalt: FreshSalt): (r: Derivation)
    ensures r.key.Ok? ==> SaltKey in r.disk && r.disk[SaltKey].Bytes?
                          && r.key.value == Pbkdf2Key(p, passphrase, r.disk[SaltKey].bytes, disk)
    ensures overwrite ==> r.disk == disk[SaltKey := Bytes(newSalt)] && r.key.Ok?
    ensures !overwrite && SaltKey in disk && disk[SaltKey].Bytes? ==> r.disk == disk && r.key.Ok?
    ensures r.key.Err? ==> r.key.error == SaltUnreadable && r.disk == disk
    ensures HonoursLength(p) && r.key.Ok? && r.key.value.Some? ==> |r.key.value.value| * 8 == KeyBits
    ensures AgreeOutside(disk, r.disk, {SaltKey})
  {
    var chosen := GetSalt(disk, overwrite, newSalt);
    match chosen.salt
    case Err(e) => Derivation(chosen.disk, Err(e))
    case Ok(salt) => Derivation(chosen.disk, Ok(Pbkdf2Key(p, passphrase, salt, chosen.disk)))
  }

  /** With the salt kept, the derived key depends on nothing but the passphrase,
      the stored salt and the iteration setting. */
  lemma DeriveKeyDeterministic(p: Primitives, d1: Disk, d2: Disk, passphrase: string, f1: FreshSalt, f2: FreshSalt)
    requires SaltKey in d1 && SaltKey in d2 && d1[SaltKey] == d2[SaltKey] && d1[SaltKey].Bytes?
    requires RoundsSetting(d1) == RoundsSetting(d2)
    ensures DeriveKey(p, d1, passphrase, false, f1).key == DeriveKey(p, d2, passphrase, false, f2).key
  {
  }
}

=== FILE: js_number.dfy ===
/**
 * `Number.parseInt(text, 10)` of ECMAScript, on the code points of a string:
 * skip leading white space, read an optional sign, then the longest run of
 * decimal digits; no digit at all gives `NaN`, written `None` here.
 */
module JsNumber {
  import opened Results

  /** StrWhiteSpaceChar: the WhiteSpace and LineTerminator code points of ECMAScript. */
  predicate IsStrWhiteSpace(c: char) {
    || c == '\t' || c == '\U{B}' || c == '\U{C}' || c == ' ' || c == '\U{A0}' || c == '\U{FEFF}'
    || c == '\U{1680}' || ('\U{2000}' <= c <= '\U{200A}') || c == '\U{202F}' || c == '\U{205F}'
    || c == '\U{3000}' || c == '\n' || c == '\r' || c == '\U{2028}' || c == '\U{2029}'
  }

  predicate IsDigit(c: char) {
    '0' <= c <= '9'
  }

  predicate AllDigits(s: string) {
    forall i :: 0 <= i < |s| ==> IsDigit(s[i])
  }

  function DigitValue(c: char): nat
    requires IsDigit(c)
  {
    c as int - '0' as int
  }

  function DigitChar(d: nat): (c: char)
    requires d < 10
    ensures IsDigit(c) && DigitValue(c) == d
  {
    ('0' as int + d) as char
  }

  /** The string with its leading white space removed. */
  function TrimStart(s: string): (r: string)
    ensures |r| <= |s| && r == s[|s| - |r|..]
    ensures |r| > 0 ==> !IsStrWhiteSpace(r[0])
    ensures forall i :: 0 <= i < |s| - |r| ==> IsStrWhiteSpace(s[i])
  {
    if |s| > 0 && IsStrWhiteSpace(s[0]) then TrimStart(s[1..]) else s
  }

  /** The code units before the first one that is not a decimal digit. */
  function LeadingDigits(s: string): (r: string)
    ensures |r| <= |s| && r == s[..|r|]
    ensures AllDigits(r)
    ensures |r| < |s| ==> !IsDigit(s[|r|])
  {
    if |s| > 0 && IsDigit(s[0]) then [s[0]] + LeadingDigits(s[1..]) else []
  }

  /** The mathematical value of a run of decimal digits, most significant first. */
  function DigitsValue(d: string): nat
    requires AllDigits(d)
  {
    if |d| == 0 then 0 else DigitsValue(d[..|d| - 1]) * 10 + DigitValue(d[|d| - 1])
  }

  /** The text after an optional leading sign. */
  function Unsigned(t: string): (r: string)
    ensures |r| <= |t|
  {
    if |t| > 0 && (t[0] == '-' || t[0] == '+') then t[1..] else t
  }

  /** `Number.parseInt(s, 10)`; `None` is `NaN`. */
  function ParseInt(s: string): (r: Option<int>)
    ensures r.None? <==> LeadingDigits(Unsigned(TrimStart(s))) == []
    ensures r.Some? && r.value < 0 ==> TrimStart(s)[0] == '-'
  {
    ParseSigned(TrimStart(s))
  }

  /** The value of an optional sign and the digit run after it. */
  function ParseSigned(t: string): Option<int> {
    var digits := LeadingDigits(Unsigned(t));
    if |digits| == 0 then None
    else
      var magnitude: int := DigitsValue(digits);
      Some(if |t| > 0 && t[0] == '-' then -magnitude else magnitude)
  }

  /** The decimal digits of a natural number, most significant first, without
      leading zeros. */
  function DecimalText(n: nat): (r: string)
    ensures |r| > 0 && AllDigits(r)
  {
    if n < 10 then [DigitChar(n)] else DecimalText(n / 10) + [DigitChar(n % 10)]
  }

  lemma NoSpaceToTrim(s: string)
    requires |s| > 0 && ('0' <= s[0] <= '9' || s[0] == '-')
    ensures TrimStart(s) == s
  {
    assert !IsStrWhiteSpace(s[0]);
  }

  lemma {:induction false} DecimalTextValue(n: nat)
    ensures DigitsValue(DecimalText(n)) == n
  {
    if n >= 10 {
      var d := DecimalText(n / 10);
      DecimalTextValue(n / 10);
      assert DecimalText(n)[..|DecimalText(n)| - 1] == d;
    }
  }

  lemma {:induction false} LeadingDigitsOfDigitRun(d: string, rest: string)
    requires AllDigits(d)
    requires |rest| == 0 || !IsDigit(rest[0])
    ensures LeadingDigits(d + rest) == d
  {
    if |d| == 0 {
      assert d + rest == rest;
    } else {
      assert (d + rest)[1..] == d[1..] + rest;
      LeadingDigitsOfDigitRun(d[1..], rest);
    }
  }

  /** `parseInt` reads a decimal number back, and stops at the first non-digit after it. */
  lemma ParseDecimalPrefix(n: nat, rest: string)
    requires |rest| == 0 || !IsDigit(rest[0])
    ensures ParseInt(DecimalText(n) + rest) == Some(n)
  {
    var s := DecimalText(n) + rest;
    assert s[0] == DecimalText(n)[0];
    NoSpaceToTrim(s);
    assert Unsigned(s) == s;
    LeadingDigitsOfDigitRun(DecimalText(n), rest);
    DecimalTextValue(n);
  }

  /** The decimal digits of a natural number parse back to that number. */
  lemma ParseDecimalText(n: nat)
    ensures ParseInt(DecimalText(n)) == Some(n)
  {
    ParseDecimalPrefix(n, "");
    assert DecimalText(n) + "" == DecimalText(n);
  }

  /** A minus sign in front of the digits negates the value. */
  lemma ParseNegativeDecimal(n: nat)
    ensures ParseInt(['-'] + DecimalText(n)) == Some(-(n as int))
  {
    var s := ['-'] + DecimalText(n);
    NoSpaceToTrim(s);
    assert Unsigned(s) == DecimalText(n);
    LeadingDigitsOfDigitRun(DecimalText(n), "");
    assert DecimalText(n) + "" == DecimalText(n);
    DecimalTextValue(n);
  }

  /** Leading white space does not change the result. */
  lemma ParseSkipsLeadingSpace(c: char, s: string)
    requires IsStrWhiteSpace(c)
    ensures ParseInt([c] + s) == ParseInt(s)
  {
    var cs := [c] + s;
    assert cs[0] == c && cs[1..] == s;
    assert TrimStart(cs) == TrimStart(s);
  }

  /** A string with no decimal digit in it parses as `NaN`. */
  lemma ParseWithoutDigits(s: string)
    requires forall i :: 0 <= i < |s| ==> !IsDigit(s[i])
    ensures ParseInt(s) == None
  {
    var t := TrimStart(s);
    var unsigned := Unsigned(t);
    if |unsigned| > 0 {
      var j := if t[0] == '-' || t[0] == '+' then 1 else 0;
      assert unsigned[0] == t[j];
      assert t[j] == s[|s| - |t| + j];
      assert !IsDigit(unsigned[0]);
    }
    assert LeadingDigits(unsigned) == [];
  }
}

=== FILE: local_secure_storage.dfy ===
/**
 * The password-gated encrypted key-value store of
 * `background/LocalSecureStorage.js`, as pure transitions over its state: the
 * in-memory key (`_encryptionkey`), the plaintext cache and the persistent
 * storage. The passphrase prompt's answer and the random nonces and salt
 * each operation draws are parameters.
 */
module LocalSecureStorage {
  import opened Results
  import opened Storage
  import opened Crypto

  /** Every key of the store lives under this prefix in the shared storage. */
  const Prefix: string := "local_secure_storage__"
  /** The name under which the dummy marker is kept. */
  const DummyValueKey: string := "encryption_key_test"

  /** Where the store keeps the value named `name`. */
  function Slot(name: string): (s: string)
    ensures IsPrefixed(s) && UserName(s) == name
  {
    assert (Prefix + name)[..|Prefix|] == Prefix;
    Prefix + name
  }

  /** `key.substr(0, prefixLength) === _prefix`. */
  predicate IsPrefixed(s: string) {
    |Prefix| <= |s| && s[..|Prefix|] == Prefix
  }

  /** The name a prefixed storage key stands for. */
  function UserName(s: string): string
    requires IsPrefixed(s)
  {
    s[|Prefix|..]
  }

  /** Stripping the prefix and putting it back gives the storage key again. */
  lemma SlotOfUserName(s: string)
    requires IsPrefixed(s)
    ensures Slot(UserName(s)) == s
  {
    assert s == s[..|Prefix|] + s[|Prefix|..];
  }

  /** Distinct names have distinct storage keys. */
  lemma SlotInjective(a: string, b: string)
    requires Slot(a) == Slot(b)
    ensures a == b
  {
    assert UserName(Slot(a)) == a && UserName(Slot(b)) == b;
  }

  /** The storage key of the dummy marker. */
  function MarkerSlot(): string {
    Slot(DummyValueKey)
  }

  /** A storage key holding a value of the user: prefixed, and not the marker. */
  predicate IsUserSlot(s: string) {
    IsPrefixed(s) && UserName(s) != DummyValueKey
  }

  /** The salt and the iteration setting live outside the store's namespace. */
  lemma OutsideNamespace()
    ensures !IsPrefixed(SaltKey) && !IsPrefixed(RoundsKey)
    ensures forall name :: Slot(name) != SaltKey && Slot(name) != RoundsKey
  {
  }

  datatype Store = Store(key: Option<Key>, cache: map<string, string>, disk: Disk)

  /** `ready()`: a key is held. */
  predicate Ready(st: Store) {
    st.key.Some?
  }

  /** What the passphrase prompt returns: a passphrase, or a dismissal. */
  datatype PromptAnswer = Entered(passphrase: string) | Closed

  /** Everything an operation takes from outside: the prompt's answer, the bytes of
      a new salt, the nonce of a new marker, and the nonce each `set` draws. */
  datatype Env = Env(answer: PromptAnswer, salt: FreshSalt, markerNonce: string, itemNonce: string -> string)

  /** The state after an operation, and what its promise settles with. */
  datatype Step<+T> = Step(store: Store, outcome: Result<T>)

  /** The disk holds a marker whose verifier checks out under `key`. */
  ghost predicate MarkerAccepts(p: Primitives, disk: Disk, key: Key) {
    && MarkerSlot() in disk
    && disk[MarkerSlot()].Record?
    && CheckVerifier(p, key, Verifier(disk[MarkerSlot()].nonce, disk[MarkerSlot()].verifier)) == Matches
  }

  /** `key` is what `deriveKey(passphrase)` yields from the stored salt and setting. */
  ghost predicate KeyDerivedFrom(p: Primitives, disk: Disk, passphrase: string, key: Key) {
    && SaltKey in disk
    && disk[SaltKey].Bytes?
    && Pbkdf2Key(p, passphrase, disk[SaltKey].bytes, disk) == Some(key)
  }

  /** `has(name)`: resolves iff storage holds the prefixed key; writes nothing. */
  function Has(st: Store, name: string): (r: Result<()>)
    ensures r.Ok? <==> Slot(name) in st.disk
    ensures r.Err? ==> r.error == NoSuchKey
  {
    if Slot(name) in st.disk then Ok(()) else Err(NoSuchKey)
  }

  /** The record `set` persists: the value encrypted under the key with the new
      nonce as IV, next to that nonce's verifier. */
  function Seal(p: Primitives, key: Key, value: string, nonce: string): (e: Entry)
    ensures e.Record? && e.nonce == nonce && e.data.Some?
    ensures RoundTrip(p) ==> && CheckVerifier(p, key, Verifier(e.nonce, e.verifier)) == Matches
                             && p.decrypt(e.data.value, key, e.nonce) == Some(value)
  {
    var v := GenerateVerifier(p, key, nonce);
    Record(Some(p.encrypt(value, key, v.nonce)), v.nonce, v.verifier)
  }

  /**
   * `_decrypt(record)`: decrypt the record's payload only once its verifier has
   * checked out under the held key. A failed check throws "key wrong"; a
   * missing field or key makes the cipher layer throw.
   */
  function Decrypt(p: Primitives, key: Option<Key>, e: Entry): (r: Result<string>)
    ensures r.Ok? ==> && key.Some? && e.Record? && e.data.Some?
                      && CheckVerifier(p, key.value, Verifier(e.nonce, e.verifier)) == Matches
                      && p.decrypt(e.data.value, key.value, e.nonce) == Some(r.value)
    ensures key.Some? && e.Record? && CheckVerifier(p, key.value, Verifier(e.nonce, e.verifier)) == Mismatch
            ==> r == Err(KeyWrong)
    ensures r.Err? ==> r.error == KeyWrong || r.error == Undecodable
    ensures key.Some? && e.Record? && e.data.Some?
            && CheckVerifier(p, key.value, Verifier(e.nonce, e.verifier)) == Matches
            && p.decrypt(e.data.value, key.value, e.nonce).Some?
            ==> r == Ok(p.decrypt(e.data.value, key.value, e.nonce).value)
  {
    match key
    case None => Err(Undecodable)
    case Some(k) =>
      if !e.Record? then Err(Undecodable)
      else
        match CheckVerifier(p, k, Verifier(e.nonce, e.verifier))
        case Threw => Err(Undecodable)
        case Mismatch => Err(KeyWrong)
        case Matches =>
          if e.data.None? then Err(Undecodable)
          else (
            match p.decrypt(e.data.value, k, e.nonce)
            case None => Err(Undecodable)
            case Some(text) => Ok(text))
  }

  /** What `set` persists, `_decrypt` under the same key gives back. */
  lemma DecryptSeal(p: Primitives, key: Key, value: string, nonce: string)
    requires RoundTrip(p)
    ensures Decrypt(p, Some(key), Seal(p, key, value, nonce)) == Ok(value)
  {
    assert CheckVerifier(p, key, GenerateVerifier(p, key, nonce)) == Matches;
  }

  /**
   * `_setupNewPassword()`: ask for a new passphrase, derive a key with a new salt,
   * store the dummy marker `{nonce, verifier}` made from that key and hold the key.
   */
  function SetupNewPassword(p: Primitives, st: Store, env: Env): (r: Step<()>)
    ensures r.store.cache == st.cache
    ensures r.outcome.Ok? ==> && r.store.key.Some? && env.answer.Entered?
                              && KeyDerivedFrom(p, r.store.disk, env.answer.passphrase, r.store.key.value)
                              && r.store.disk[SaltKey] == Bytes(env.salt)
                              && MarkerSlot() in r.store.disk
                              && r.store.disk[MarkerSlot()] == Record(None, env.markerNonce,
                                   GenerateVerifier(p, r.store.key.value, env.markerNonce).verifier)
    ensures r.outcome.Err? ==> r.store.key == st.key
    ensures r.outcome.Err? ==> r.outcome.error == PromptClosed || r.outcome.error == NoDerivedKey
    ensures AgreeOutside(st.disk, r.store.disk, {SaltKey, MarkerSlot()})
  {
    match env.answer
    case Closed => Step(st, Err(PromptClosed))
    case Entered(passphrase) =>
      var derived := DeriveKey(p, st.disk, passphrase, true, env.salt);
      var st1 := st.(disk := derived.disk);
      if derived.key.Err? || derived.key.value.None? then
        // `generateVerifier(undefined)` throws inside the promise chain, which rejects
        Step(st1, Err(NoDerivedKey))
      else
        var key := derived.key.value.value;
        var v := GenerateVerifier(p, key, env.markerNonce);
        var disk := derived.disk[MarkerSlot() := Record(None, v.nonce, v.verifier)];
        OutsideNamespace();
        assert SaltKey != MarkerSlot() && RoundsKey != MarkerSlot() && RoundsKey != SaltKey;
        assert disk[SaltKey] == Bytes(env.salt);
        assert AgreeOutside(derived.disk, disk, {MarkerSlot()});
        RoundsSettingKept(st.disk, derived.disk, {SaltKey});
        RoundsSettingKept(derived.disk, disk, {MarkerSlot()});
        Step(Store(Some(key), st.cache, disk), Ok(()))
  }

  /** What the verify callback leaves behind: storage (a missing salt is created
      while deriving) and its verdict. */
  datatype Answer = Answer(disk: Disk, verdict: Result<Key>)

  /**
   * The verify callback handed to the unlock prompt: derive a key from the
   * candidate passphrase with the stored salt, fetch the dummy marker and check
   * its verifier. `Ok(key)` is `accept(key)`; `Err(WrongUserKey)` is
   * `reject(...)`; any other error is an exception in the callback, which then
   * answers neither.
   */
  function VerifyCandidate(p: Primitives, disk: Disk, passphrase: string, newSalt: FreshSalt): (r: Answer)
    ensures r.verdict.Ok? ==> && MarkerAccepts(p, r.disk, r.verdict.value)
                              && KeyDerivedFrom(p, r.disk, passphrase, r.verdict.value)
    ensures var derived := DeriveKey(p, disk, passphrase, false, newSalt);
            r.verdict == Err(WrongUserKey) <==>
              && derived.key.Ok? && derived.key.value.Some?
              && MarkerSlot() in disk && disk[MarkerSlot()].Record?
              && CheckVerifier(p, derived.key.value.value,
                   Verifier(disk[MarkerSlot()].nonce, disk[MarkerSlot()].verifier)) == Mismatch
    ensures AgreeOutside(disk, r.disk, {SaltKey})
  {
    var derived := DeriveKey(p, disk, passphrase, false, newSalt);
    var d := derived.disk;
    assert MarkerSlot() != SaltKey by { assert !IsPrefixed(SaltKey); }
    if derived.key.Err? then Answer(d, Err(derived.key.error))
    else if MarkerSlot() !in d then Answer(d, Err(MarkerMissing))
    else if derived.key.value.None? then Answer(d, Err(NoDerivedKey))
    else if !d[MarkerSlot()].Record? then Answer(d, Err(Undecodable))
    else
      var key := derived.key.value.value;
      match CheckVerifier(p, key, Verifier(d[MarkerSlot()].nonce, d[MarkerSlot()].verifier))
      case Matches => Answer(d, Ok(key))
      case Mismatch => Answer(d, Err(WrongUserKey))
      case Threw => Answer(d, Err(Undecodable))
  }

  /**
   * `_unlockExistingPassword()`: the prompt runs the verify callback on the
   * passphrase; an accepted key is held, a rejection leaves the store locked,
   * and a callback that throws leaves the prompt, and the caller, waiting.
   */
  function UnlockExistingPassword(p: Primitives, st: Store, env: Env): (r: Step<()>)
    ensures r.store.cache == st.cache
    ensures r.outcome.Ok? ==> && r.store.key.Some? && env.answer.Entered?
                              && MarkerAccepts(p, r.store.disk, r.store.key.value)
                              && KeyDerivedFrom(p, r.store.disk, env.answer.passphrase, r.store.key.value)
    ensures r.outcome.Err? ==> r.store.key == st.key
    ensures r.outcome.Err? ==> r.outcome.error in {PromptClosed, WrongUserKey} || r.outcome.error.Unsettled?
    ensures AgreeOutside(st.disk, r.store.disk, {SaltKey})
  {
    match env.answer
    case Closed => Step(st, Err(PromptClosed))
    case Entered(passphrase) =>
      var answer := VerifyCandidate(p, st.disk, passphrase, env.salt);
      var st1 := st.(disk := answer.disk);
      if answer.verdict.Ok? then Step(st1.(key := Some(answer.verdict.value)), Ok(()))
      else if answer.verdict.error == WrongUserKey then Step(st1, Err(WrongUserKey))
      else Step(st1, Err(Unsettled(answer.verdict.error)))
  }

  /**
   * `_unlockStorage()`: nothing to do when a key is held; otherwise unlock when the
   * dummy marker exists, and set up a new passphrase when it does not.
   */
  function UnlockStorage(p: Primitives, st: Store, env: Env): (r: Step<()>)
    ensures st.key.Some? ==> r == Step(st, Ok(()))
    ensures r.store.cache == st.cache
    ensures r.outcome.Ok? <==> Ready(r.store)
    ensures r.outcome.Err? ==> r.store.key == st.key
    ensures RoundTrip(p) && r.store.key.Some? ==> st.key.Some? || MarkerAccepts(p, r.store.disk, r.store.key.value)
    ensures st.key.None? && r.store.key.Some? ==>
              env.answer.Entered? && KeyDerivedFrom(p, r.store.disk, env.answer.passphrase, r.store.key.value)
    ensures st.key.None? && MarkerSlot() in st.disk ==>
              MarkerSlot() in r.store.disk && r.store.disk[MarkerSlot()] == st.disk[MarkerSlot()]
    ensures AgreeOutside(st.disk, r.store.disk, {SaltKey, MarkerSlot()})
  {
    if st.key.Some? then Step(st, Ok(()))
    else if Has(st, DummyValueKey).Ok? then UnlockExistingPassword(p, st, env)
    else
      var r := SetupNewPassword(p, st, env);
      assert RoundTrip(p) && r.outcome.Ok? ==> MarkerAccepts(p, r.store.disk, r.store.key.value) by {
        if RoundTrip(p) && r.outcome.Ok? {
          assert CheckVerifier(p, r.store.key.value, GenerateVerifier(p, r.store.key.value, env.markerNonce)) == Matches;
        }
      }
      r
  }

  /** The part of `set` that runs once a key is held: cache the value and persist
      it sealed under the held key with the nonce drawn for the name. */
  function Write(p: Primitives, st: Store, name: string, value: string, env: Env): (r: Store)
    requires st.key.Some?
    ensures r.key == st.key && r.cache == st.cache[name := value]
    ensures Slot(name) in r.disk && r.disk[Slot(name)] == Seal(p, st.key.value, value, env.itemNonce(name))
    ensures AgreeOutside(st.disk, r.disk, {Slot(name)})
  {
    st.(cache := st.cache[name := value],
        disk := st.disk[Slot(name) := Seal(p, st.key.value, value, env.itemNonce(name))])
  }

  /**
   * `set(name, value)`: unlock, put the value in the cache, and persist it
   * encrypted under the held key with a new nonce as IV, next to that nonce's
   * verifier.
   */
  function Set(p: Primitives, st: Store, name: string, value: string, env: Env): (r: Step<()>)
    ensures st.key.Some? ==> r == Step(Write(p, st, name, value, env), Ok(()))
    ensures r.outcome.Ok? ==> && r.store.key.Some?
                              && r.store.cache == st.cache[name := value]
                              && Slot(name) in r.store.disk
                              && r.store.disk[Slot(name)] == Seal(p, r.store.key.value, value, env.itemNonce(name))
    ensures r.outcome.Err? ==> r.store.key == st.key && r.store.cache == st.cache
    ensures r.outcome.Err? && Slot(name) != MarkerSlot() ==>
              (Slot(name) in r.store.disk <==> Slot(name) in st.disk)
              && (Slot(name) in st.disk ==> r.store.disk[Slot(name)] == st.disk[Slot(name)])
    ensures AgreeOutside(st.disk, r.store.disk, {SaltKey, MarkerSlot(), Slot(name)})
  {
    var u := UnlockStorage(p, st, env);
    if u.outcome.Err? then u
    else
      Step(Write(p, u.store, name, value, env), Ok(()))
  }

  /**
   * `get(name)`: a cached value is returned without unlocking or reading storage;
   * otherwise unlock, read the prefixed key and `_decrypt` it. The cache is not
   * filled on this path. A `_decrypt` that throws does so in a detached callback,
   * so the promise never settles.
   */
  function Get(p: Primitives, st: Store, name: string, env: Env): (r: Step<string>)
    ensures name in st.cache ==> r == Step(st, Ok(st.cache[name]))
    ensures r.store.cache == st.cache
    ensures name !in st.cache && r.outcome.Ok? ==>
              && r.store.key.Some? && Slot(name) in r.store.disk
              && Decrypt(p, r.store.key, r.store.disk[Slot(name)]) == Ok(r.outcome.value)
    ensures name !in st.cache && r.store.key.Some? && Slot(name) !in r.store.disk ==>
              r.outcome == Err(NotFound(name))
    ensures (name !in st.cache && r.store.key.Some? && Slot(name) in r.store.disk
             && Decrypt(p, r.store.key, r.store.disk[Slot(name)]).Err?) ==> r.outcome.Err? && r.outcome.error.Unsettled?
    ensures (name !in st.cache && r.store.key.Some? && Slot(name) in r.store.disk
             && Decrypt(p, r.store.key, r.store.disk[Slot(name)]).Ok?) ==> r.outcome == Decrypt(p, r.store.key, r.store.disk[Slot(name)])
    ensures AgreeOutside(st.disk, r.store.disk, {SaltKey, MarkerSlot()})
  {
    if name in st.cache then Step(st, Ok(st.cache[name]))
    else
      var u := UnlockStorage(p, st, env);
      if u.outcome.Err? then Step(u.store, Err(u.outcome.error))
      else if Slot(name) !in u.store.disk then Step(u.store, Err(NotFound(name)))
      else
        match Decrypt(p, u.store.key, u.store.disk[Slot(name)])
        case Ok(text) => Step(u.store, Ok(text))
        case Err(e) => Step(u.store, Err(Unsettled(e)))
  }

  /** `delete(name)`: removes the prefixed key from storage, without unlocking and
      without touching the cache. */
  function Delete(st: Store, name: string): (r: Store)
    ensures r.key == st.key && r.cache == st.cache
    ensures Slot(name) !in r.disk
    ensures AgreeOutside(st.disk, r.disk, {Slot(name)})
  {
    st.(disk := st.disk - {Slot(name)})
  }
}

=== FILE: reencrypt.dfy ===
/**
 * `reencrypt()` of `background/LocalSecureStorage.js`: decrypt and delete every
 * value of the store, set up a new passphrase (with a new salt and marker),
 * then `set` every value again under the new key.
 */
module Reencrypt {
  import opened Results
  import opened Storage
  import opened Crypto
  import opened LocalSecureStorage

  /** The one name a plain object cannot hold as its own key: assigning a string
      to `dataToSave["__proto__"]` goes to the prototype setter, which ignores it,
      so `Object.keys(dataToSave)` never lists that name. */
  const ProtoName: string := "__proto__"

  /** What the first loop leaves: the decrypted values by name (`dataToSave`), the
      storage keys it deleted, the exception that stopped it, if any, and the
      position in the key list where it stopped (the list's length when it ran
      to the end). */
  datatype Gathered = Gathered(saved: map<string, string>, removed: set<string>, failure: Option<Error>, stop: nat)

  /**
   * The first loop over a snapshot of storage, in the order `Object.keys` lists
   * it: every prefixed key other than the marker's is decrypted under the held
   * key, recorded under its name without the prefix (except `__proto__`, which
   * the object does not keep), then deleted. A `_decrypt` that throws ends the
   * loop; what was deleted before stays deleted.
   */
  function Gather(p: Primitives, key: Option<Key>, snapshot: Disk, order: seq<string>): (g: Gathered)
    requires forall s :: s in order ==> s in snapshot
    ensures forall s :: s in g.removed ==> s in order && IsUserSlot(s) && Decrypt(p, key, snapshot[s]).Ok?
    ensures forall u :: u in g.saved ==> Slot(u) in order && IsUserSlot(Slot(u)) && u != ProtoName
    ensures g.failure.None? ==> forall s :: s in order && IsUserSlot(s) ==> s in g.removed
    ensures g.failure.None? ==>
              forall s :: s in order && IsUserSlot(s) && UserName(s) != ProtoName ==>
                UserName(s) in g.saved && Decrypt(p, key, snapshot[s]) == Ok(g.saved[UserName(s)])
    ensures g.failure.Some? ==>
              exists s :: s in order && IsUserSlot(s) && s !in g.removed
                          && Decrypt(p, key, snapshot[s]) == Err(g.failure.value)
    ensures g.failure.None? <==> g.stop == |order|
    ensures g.stop <= |order|
    decreases |order|
  {
    if |order| == 0 then Gathered(map[], {}, None, 0)
    else
      var s := order[0];
      var rest := Gather(p, key, snapshot, order[1..]);
      if !IsUserSlot(s) then rest.(stop := rest.stop + 1)
      else
        match Decrypt(p, key, snapshot[s])
        case Err(e) => Gathered(map[], {}, Some(e), 0)
        case Ok(text) =>
          SlotOfUserName(s);
          var saved := if UserName(s) == ProtoName then rest.saved else rest.saved[UserName(s) := text];
          Gathered(saved, rest.removed + {s}, rest.failure, rest.stop + 1)
  }

  /**
   * Where the first loop stops: at the first user record whose `_decrypt`
   * throws, having deleted nothing listed from that position on.
   */
  lemma {:induction false} GatherStops(p: Primitives, key: Option<Key>, snapshot: Disk, order: seq<string>)
    requires forall s :: s in order ==> s in snapshot
    ensures var g := Gather(p, key, snapshot, order);
            && (g.failure.Some? ==>
                  && g.stop < |order|
                  && IsUserSlot(order[g.stop])
                  && Decrypt(p, key, snapshot[order[g.stop]]) == Err(g.failure.value))
            && (forall s :: s in g.removed ==> s in order[..g.stop])
    decreases |order|
  {
    if |order| > 0 {
      var g := Gather(p, key, snapshot, order);
      var rest := Gather(p, key, snapshot, order[1..]);
      if IsUserSlot(order[0]) && Decrypt(p, key, snapshot[order[0]]).Err? {
        assert g.stop == 0 && g.removed == {};
      } else {
        GatherStops(p, key, snapshot, order[1..]);
        PrefixOfTail(order, rest.stop);
        assert g.stop == rest.stop + 1 && g.failure == rest.failure;
        assert g.removed <= rest.removed + {order[0]};
        if g.failure.Some? {
          assert order[g.stop] == order[1..][rest.stop];
        }
      }
    }
  }

  /** Before it stops, the first loop deletes every user record it passes: what
      it decrypted is not rolled back. */
  lemma {:induction false} GatherDeletesBeforeStop(p: Primitives, key: Option<Key>, snapshot: Disk, order: seq<string>)
    requires forall s :: s in order ==> s in snapshot
    ensures var g := Gather(p, key, snapshot, order);
            forall j :: 0 <= j < g.stop && IsUserSlot(order[j]) ==> order[j] in g.removed
    decreases |order|
  {
    if |order| > 0 {
      var g := Gather(p, key, snapshot, order);
      var rest := Gather(p, key, snapshot, order[1..]);
      if !(IsUserSlot(order[0]) && Decrypt(p, key, snapshot[order[0]]).Err?) {
        GatherDeletesBeforeStop(p, key, snapshot, order[1..]);
        assert g.stop == rest.stop + 1;
        assert rest.removed <= g.removed;
        assert IsUserSlot(order[0]) ==> order[0] in g.removed;
        forall j | 0 < j < g.stop && IsUserSlot(order[j])
          ensures order[j] in g.removed
        {
          assert order[j] == order[1..][j - 1];
        }
      }
    }
  }

  /** The first `k` keys after the head, with the head, are the first `k + 1` keys. */
  lemma PrefixOfTail(order: seq<string>, k: nat)
    requires k < |order|
    ensures order[0] in order[..k + 1]
    ensures forall s :: s in order[1..][..k] ==> s in order[..k + 1]
  {
    assert order[..k + 1] == [order[0]] + order[1..][..k];
  }

  /** One step of the second loop: the write of the first name, followed by the
      writes of the rest, is the write of all of them. */
  lemma RestoreHead(p: Primitives, st: Store, names: seq<string>, saved: map<string, string>,
                    env: Env, next: Store, r: Store)
    requires st.key.Some? && |names| > 0
    requires forall v :: v in names ==> v in saved
    requires next == Write(p, st, names[0], saved[names[0]], env)
    requires r.key == next.key
    requires forall v :: v in names[1..] ==>
               && v in r.cache && r.cache[v] == saved[v]
               && Slot(v) in r.disk && r.disk[Slot(v)] == Seal(p, next.key.value, saved[v], env.itemNonce(v))
    requires forall v :: v !in names[1..] ==> (v in r.cache <==> v in next.cache) && (v in next.cache ==> r.cache[v] == next.cache[v])
    requires AgreeOutside(next.disk, r.disk, set v | v in names[1..] :: Slot(v))
    ensures forall v :: v in names ==>
              && v in r.cache && r.cache[v] == saved[v]
              && Slot(v) in r.disk && r.disk[Slot(v)] == Seal(p, st.key.value, saved[v], env.itemNonce(v))
    ensures forall v :: v !in names ==> (v in r.cache <==> v in st.cache) && (v in st.cache ==> r.cache[v] == st.cache[v])
    ensures AgreeOutside(st.disk, r.disk, set v | v in names :: Slot(v))
  {
    var u, rest := names[0], names[1..];
    assert names == [u] + rest;
    var later := set v | v in rest :: Slot(v);
    AgreeOutsideTrans(st.disk, next.disk, r.disk, {Slot(u)}, later);
    assert {Slot(u)} + later == set v | v in names :: Slot(v);
    if u !in rest {
      SlotNotAmong(rest, u);
      assert r.disk[Slot(u)] == next.disk[Slot(u)];
    }
  }

  /** The storage key of a name not in the list is none of the list's storage keys. */
  lemma SlotNotAmong(names: seq<string>, u: string)
    requires u !in names
    ensures Slot(u) !in set v | v in names :: Slot(v)
  {
    forall v | v in names
      ensures Slot(v) != Slot(u)
    {
      assert UserName(Slot(v)) == v && UserName(Slot(u)) == u;
    }
  }

  /** `Object.keys(dataToSave)`: the names of the user's values, in the order the
      snapshot lists them, without `__proto__`. */
  function UserNames(order: seq<string>): (names: seq<string>)
    ensures forall u :: u in names <==> Slot(u) in order && u != DummyValueKey && u != ProtoName
  {
    if |order| == 0 then []
    else
      var rest := UserNames(order[1..]);
      if IsUserSlot(order[0]) && UserName(order[0]) != ProtoName then
        SlotOfUserName(order[0]);
        [UserName(order[0])] + rest
      else
        rest
  }

  /**
   * The second loop: `set(name, value)` for every saved value. The key is held by
   * then, so no `set` prompts, and each writes the value sealed under the held key
   * with the nonce drawn for it.
   */
  function RestoreAll(p: Primitives, st: Store, names: seq<string>, saved: map<string, string>, env: Env): (r: Store)
    requires st.key.Some?
    requires forall u :: u in names ==> u in saved
    ensures r.key == st.key
    ensures forall u :: u in names ==>
              && u in r.cache && r.cache[u] == saved[u]
              && Slot(u) in r.disk && r.disk[Slot(u)] == Seal(p, st.key.value, saved[u], env.itemNonce(u))
    ensures forall u :: u !in names ==> (u in r.cache <==> u in st.cache) && (u in st.cache ==> r.cache[u] == st.cache[u])
    ensures AgreeOutside(st.disk, r.disk, set u | u in names :: Slot(u))
    decreases |names|
  {
    if |names| == 0 then st
    else
      var u := names[0];
      // with the key held, `set` is exactly this write
      var next := Write(p, st, u, saved[u], env);
      var r := RestoreAll(p, next, names[1..], saved, env);
      assert forall v :: v in names[1..] ==> v in names;
      RestoreHead(p, st, names, saved, env, next, r);
      r
  }

  /**
   * `reencrypt()`. It returns nothing to its caller; the outcome says how its
   * detached promise chain ended: `Ok` once every value is set again, otherwise
   * the exception or rejection that stopped it.
   */
  function Reencrypt(p: Primitives, st: Store, order: seq<string>, env: Env): (r: Step<()>)
    requires forall s :: s in st.disk <==> s in order
    ensures r.outcome.Err? ==> r.store.key == st.key && r.store.cache == st.cache
    ensures r.outcome.Ok? ==> r.store.key.Some?
  {
    var g := Gather(p, st.key, st.disk, order);
    var st1 := st.(disk := st.disk - g.removed);
    if g.failure.Some? then Step(st1, Err(g.failure.value))
    else
      var setup := SetupNewPassword(p, st1, env);
      if setup.outcome.Err? then setup
      else
        var names := UserNames(order);
        assert forall u :: u in names ==> u in g.saved by {
          forall u | u in names ensures u in g.saved {
            assert Slot(u) in order && IsUserSlot(Slot(u)) && UserName(Slot(u)) != ProtoName;
          }
        }
        Step(RestoreAll(p, setup.store, names, g.saved, env), Ok(()))
  }

  /**
   * A re-key that completes carries over the user's values: every stored value
   * other than the marker was readable under the old key, and afterwards the same
   * keys hold the same values, readable under the new key, except a value named
   * `__proto__`, which is lost. The new key is the one the new passphrase derives
   * from the new salt, and the new marker accepts it; nothing else outside the
   * namespace changes.
   */
  lemma ReencryptCarriesOver(p: Primitives, st: Store, order: seq<string>, env: Env)
    requires RoundTrip(p)
    requires forall s :: s in st.disk <==> s in order
    ensures var r := Reencrypt(p, st, order, env);
            r.outcome.Ok? ==>
              && r.store.key.Some?
              && env.answer.Entered?
              && KeyDerivedFrom(p, r.store.disk, env.answer.passphrase, r.store.key.value)
              && MarkerAccepts(p, r.store.disk, r.store.key.value)
              && r.store.disk[MarkerSlot()].data.None?
              && r.store.disk[SaltKey] == Bytes(env.salt)
              && (forall s :: IsUserSlot(s) && s in st.disk ==> Decrypt(p, st.key, st.disk[s]).Ok?)
              && (forall s :: IsUserSlot(s) ==> (s in r.store.disk <==> s in st.disk && UserName(s) != ProtoName))
              && (forall s :: IsUserSlot(s) && s in st.disk && UserName(s) != ProtoName ==>
                    && Decrypt(p, r.store.key, r.store.disk[s]) == Decrypt(p, st.key, st.disk[s])
                    && UserName(s) in r.store.cache
                    && r.store.cache[UserName(s)] == Decrypt(p, st.key, st.disk[s]).value)
              && (forall s :: !IsPrefixed(s) && s != SaltKey ==>
                    (s in r.store.disk <==> s in st.disk) && (s in st.disk ==> r.store.disk[s] == st.disk[s]))
  {
    ReencryptNewSession(p, st, order, env);
    ReencryptKeepsValues(p, st, order, env);
  }

  /** The session half of `ReencryptCarriesOver`: the new key, salt and marker. */
  lemma ReencryptNewSession(p: Primitives, st: Store, order: seq<string>, env: Env)
    requires RoundTrip(p)
    requires forall s :: s in st.disk <==> s in order
    ensures var r := Reencrypt(p, st, order, env);
            r.outcome.Ok? ==>
              && r.store.key.Some?
              && env.answer.Entered?
              && KeyDerivedFrom(p, r.store.disk, env.answer.passphrase, r.store.key.value)
              && MarkerAccepts(p, r.store.disk, r.store.key.value)
              && r.store.disk[MarkerSlot()].data.None?
              && r.store.disk[SaltKey] == Bytes(env.salt)
  {
    var r := Reencrypt(p, st, order, env);
    var g := Gather(p, st.key, st.disk, order);
    var st1 := st.(disk := st.disk - g.removed);
    if r.outcome.Ok? {
      var setup := SetupNewPassword(p, st1, env);
      var names := UserNames(order);
      var key := setup.store.key.value;
      var slots := set u | u in names :: Slot(u);
      assert r.store == RestoreAll(p, setup.store, names, g.saved, env);
      OutsideNamespace();
      assert MarkerSlot() !in slots;
      assert SaltKey !in slots;
      assert CheckVerifier(p, key, GenerateVerifier(p, key, env.markerNonce)) == Matches;
      assert RoundsSetting(r.store.disk) == RoundsSetting(setup.store.disk);
    }
  }

  /** The storage half of `ReencryptCarriesOver`: which keys hold which values. */
  lemma ReencryptKeepsValues(p: Primitives, st: Store, order: seq<string>, env: Env)
    requires RoundTrip(p)
    requires forall s :: s in st.disk <==> s in order
    ensures var r := Reencrypt(p, st, order, env);
            r.outcome.Ok? ==>
              && r.store.key.Some?
              && (forall s :: IsUserSlot(s) && s in st.disk ==> Decrypt(p, st.key, st.disk[s]).Ok?)
              && (forall s :: IsUserSlot(s) ==> (s in r.store.disk <==> s in st.disk && UserName(s) != ProtoName))
              && (forall s :: IsUserSlot(s) && s in st.disk && UserName(s) != ProtoName ==>
                    && Decrypt(p, r.store.key, r.store.disk[s]) == Decrypt(p, st.key, st.disk[s])
                    && UserName(s) in r.store.cache
                    && r.store.cache[UserName(s)] == Decrypt(p, st.key, st.disk[s]).value)
              && (forall s :: !IsPrefixed(s) && s != SaltKey ==>
                    (s in r.store.disk <==> s in st.disk) && (s in st.disk ==> r.store.disk[s] == st.disk[s]))
  {
    var r := Reencrypt(p, st, order, env);
    var g := Gather(p, st.key, st.disk, order);
    var st1 := st.(disk := st.disk - g.removed);
    if r.outcome.Ok? {
      var setup := SetupNewPassword(p, st1, env);
      var names := UserNames(order);
      assert forall u :: u in names ==> u in g.saved by {
        forall u | u in names ensures u in g.saved {
          assert Slot(u) in order && IsUserSlot(Slot(u)) && UserName(Slot(u)) != ProtoName;
        }
      }
      assert r.store == RestoreAll(p, setup.store, names, g.saved, env);
      RestoredValues(p, st, order, g, setup.store, env);
    }
  }

  /** The second loop, run on storage the first loop and the new setup left:
      the user's values are back, sealed under the new key. */
  lemma RestoredValues(p: Primitives, st: Store, order: seq<string>, g: Gathered, mid: Store, env: Env)
    requires RoundTrip(p)
    requires forall s :: s in st.disk <==> s in order
    requires forall s :: s in g.removed ==> IsUserSlot(s)
    requires forall s :: s in order && IsUserSlot(s) ==> s in g.removed && Decrypt(p, st.key, st.disk[s]).Ok?
    requires forall s :: s in order && IsUserSlot(s) && UserName(s) != ProtoName ==>
               UserName(s) in g.saved && Decrypt(p, st.key, st.disk[s]) == Ok(g.saved[UserName(s)])
    requires mid.key.Some?
    requires AgreeOutside(st.disk - g.removed, mid.disk, {SaltKey, MarkerSlot()})
    requires forall u :: u in UserNames(order) ==> u in g.saved
    ensures var r := RestoreAll(p, mid, UserNames(order), g.saved, env);
            && (forall s :: IsUserSlot(s) && s in st.disk ==> Decrypt(p, st.key, st.disk[s]).Ok?)
            && (forall s :: IsUserSlot(s) ==> (s in r.disk <==> s in st.disk && UserName(s) != ProtoName))
            && (forall s :: IsUserSlot(s) && s in st.disk && UserName(s) != ProtoName ==>
                  && Decrypt(p, r.key, r.disk[s]) == Decrypt(p, st.key, st.disk[s])
                  && UserName(s) in r.cache
                  && r.cache[UserName(s)] == Decrypt(p, st.key, st.disk[s]).value)
            && (forall s :: !IsPrefixed(s) && s != SaltKey ==>
                  (s in r.disk <==> s in st.disk) && (s in st.disk ==> r.disk[s] == st.disk[s]))
  {
    RestoredSlots(p, st, order, g, mid, env);
    RestoredContents(p, st, order, g, mid, env);
    RestoredFrame(p, st, order, g, mid, env);
  }

  /** After the second loop a user slot is stored iff it was before and is not `__proto__`'s. */
  lemma RestoredSlots(p: Primitives, st: Store, order: seq<string>, g: Gathered, mid: Store, env: Env)
    requires forall s :: s in st.disk <==> s in order
    requires forall s :: s in order && IsUserSlot(s) ==> s in g.removed
    requires mid.key.Some?
    requires AgreeOutside(st.disk - g.removed, mid.disk, {SaltKey, MarkerSlot()})
    requires forall u :: u in UserNames(order) ==> u in g.saved
    ensures var r := RestoreAll(p, mid, UserNames(order), g.saved, env);
            forall s :: IsUserSlot(s) ==> (s in r.disk <==> s in st.disk && UserName(s) != ProtoName)
  {
    var names := UserNames(order);
    var r := RestoreAll(p, mid, names, g.saved, env);
    var slots := set u | u in names :: Slot(u);
    forall s | IsUserSlot(s)
      ensures s in r.disk <==> s in st.disk && UserName(s) != ProtoName
    {
      SlotOfUserName(s);
      if s in st.disk && UserName(s) != ProtoName {
        assert UserName(s) in names;
      } else {
        assert s !in slots;
        assert s != MarkerSlot();
        OutsideNamespace();
        assert s !in (st.disk - g.removed);
      }
    }
  }

  /** After the second loop every user slot that was stored holds its old value
      under the new key, and the cache holds it too. */
  lemma RestoredContents(p: Primitives, st: Store, order: seq<string>, g: Gathered, mid: Store, env: Env)
    requires RoundTrip(p)
    requires forall s :: s in st.disk <==> s in order
    requires forall s :: s in order && IsUserSlot(s) && UserName(s) != ProtoName ==>
               UserName(s) in g.saved && Decrypt(p, st.key, st.disk[s]) == Ok(g.saved[UserName(s)])
    requires mid.key.Some?
    requires forall u :: u in UserNames(order) ==> u in g.saved
    ensures var r := RestoreAll(p, mid, UserNames(order), g.saved, env);
            forall s :: IsUserSlot(s) && s in st.disk && UserName(s) != ProtoName ==>
              && s in r.disk
              && Decrypt(p, r.key, r.disk[s]) == Decrypt(p, st.key, st.disk[s])
              && UserName(s) in r.cache
              && r.cache[UserName(s)] == Decrypt(p, st.key, st.disk[s]).value
  {
    var names := UserNames(order);
    var r := RestoreAll(p, mid, names, g.saved, env);
    var key := mid.key.value;
    forall s | IsUserSlot(s) && s in st.disk && UserName(s) != ProtoName
      ensures && s in r.disk
              && Decrypt(p, r.key, r.disk[s]) == Decrypt(p, st.key, st.disk[s])
              && UserName(s) in r.cache
              && r.cache[UserName(s)] == Decrypt(p, st.key, st.disk[s]).value
    {
      var u := UserName(s);
      SlotOfUserName(s);
      assert s in order;
      assert u in names;
      var value := g.saved[u];
      assert r.disk[s] == Seal(p, key, value, env.itemNonce(u));
      DecryptSeal(p, key, value, env.itemNonce(u));
      assert Decrypt(p, r.key, r.disk[s]) == Ok(value);
      assert r.cache[u] == value;
    }
  }

  /** Outside the store's namespace and apart from the salt, the re-key leaves storage as it was. */
  lemma RestoredFrame(p: Primitives, st: Store, order: seq<string>, g: Gathered, mid: Store, env: Env)
    requires forall s :: s in g.removed ==> IsUserSlot(s)
    requires mid.key.Some?
    requires AgreeOutside(st.disk - g.removed, mid.disk, {SaltKey, MarkerSlot()})
    requires forall u :: u in UserNames(order) ==> u in g.saved
    ensures var r := RestoreAll(p, mid, UserNames(order), g.saved, env);
            forall s :: !IsPrefixed(s) && s != SaltKey ==>
              (s in r.disk <==> s in st.disk) && (s in st.disk ==> r.disk[s] == st.disk[s])
  {
    var names := UserNames(order);
    var r := RestoreAll(p, mid, names, g.saved, env);
    var slots := set u | u in names :: Slot(u);
    var left := st.disk - g.removed;
    assert IsPrefixed(MarkerSlot());
    forall s | !IsPrefixed(s) && s != SaltKey
      ensures (s in r.disk <==> s in st.disk) && (s in st.disk ==> r.disk[s] == st.disk[s])
    {
      assert s !in slots && s !in g.removed && s != MarkerSlot();
      assert (s in left <==> s in st.disk) && (s in st.disk ==> left[s] == st.disk[s]);
      assert (s in mid.disk <==> s in left) && (s in left ==> mid.disk[s] == left[s]);
      assert (s in r.disk <==> s in mid.disk) && (s in mid.disk ==> r.disk[s] == mid.disk[s]);
    }
  }

  /**
   * A re-key that stops part-way does not roll back: the values it already
   * decrypted are gone from storage (their plaintext lived only in memory), and
   * nothing else is lost. Apart from a possibly replaced salt, every entry left
   * is the one that was there before.
   */
  lemma ReencryptFailureLosesOnlyDecrypted(p: Primitives, st: Store, order: seq<string>, env: Env)
    requires forall s :: s in st.disk <==> s in order
    ensures var r := Reencrypt(p, st, order, env);
            r.outcome.Err? ==>
              && (forall s :: s in st.disk && s !in r.store.disk ==>
                    IsUserSlot(s) && Decrypt(p, st.key, st.disk[s]).Ok?)
              && (forall s :: s in r.store.disk && s != SaltKey ==> s in st.disk && r.store.disk[s] == st.disk[s])
  {
    var r := Reencrypt(p, st, order, env);
    var g := Gather(p, st.key, st.disk, order);
    OutsideNamespace();
    assert SaltKey !in g.removed;
  }

  /** A `_decrypt` that throws ends the re-key with its exception. Every user
      record listed before it is gone from storage; its own record, and every
      key the first loop had not reached, are left in place. */
  lemma ReencryptStopsAtFailure(p: Primitives, st: Store, order: seq<string>, env: Env)
    requires forall s :: s in st.disk <==> s in order
    ensures var r := Reencrypt(p, st, order, env);
            var i := Gather(p, st.key, st.disk, order).stop;
            r.outcome.Err? && (r.outcome.error == KeyWrong || r.outcome.error == Undecodable) ==>
              && i < |order| && IsUserSlot(order[i]) && order[i] in r.store.disk
              && Decrypt(p, st.key, st.disk[order[i]]) == Err(r.outcome.error)
              && (forall j :: 0 <= j < i && IsUserSlot(order[j]) ==> order[j] !in r.store.disk)
              && (forall s :: s in st.disk && s !in order[..i] ==>
                    s in r.store.disk && r.store.disk[s] == st.disk[s])
  {
    ReencryptOutcome(p, st, order, env);
    GatherFailureLeaves(p, st.key, st.disk, order);
  }

  /** The storage a stopped first loop leaves: every user record before the one
      whose `_decrypt` threw is deleted, that one and everything after are kept. */
  lemma GatherFailureLeaves(p: Primitives, key: Option<Key>, disk: Disk, order: seq<string>)
    requires forall s :: s in disk <==> s in order
    ensures var g := Gather(p, key, disk, order);
            var left := disk - g.removed;
            var i := g.stop;
            g.failure.Some? ==>
              && i < |order| && IsUserSlot(order[i]) && order[i] in left
              && Decrypt(p, key, disk[order[i]]) == Err(g.failure.value)
              && (forall j :: 0 <= j < i && IsUserSlot(order[j]) ==> order[j] !in left)
              && (forall s :: s in disk && s !in order[..i] ==> s in left && left[s] == disk[s])
  {
    var g := Gather(p, key, disk, order);
    if g.failure.Some? {
      GatherStops(p, key, disk, order);
      GatherDeletesBeforeStop(p, key, disk, order);
      var i := g.stop;
      assert order[i] !in g.removed by {
        assert Decrypt(p, key, disk[order[i]]).Err?;
      }
      StoppedStorage(disk, order, g.removed, i);
    }
  }

  /** How the re-key ends: with the first loop's exception and the deletions it
      made, or else past the first loop, with `Ok` or a setup failure. */
  lemma ReencryptOutcome(p: Primitives, st: Store, order: seq<string>, env: Env)
    requires forall s :: s in st.disk <==> s in order
    ensures var g := Gather(p, st.key, st.disk, order);
            var r := Reencrypt(p, st, order, env);
            && (g.failure.Some? ==> r == Step(st.(disk := st.disk - g.removed), Err(g.failure.value)))
            && (g.failure.None? && r.outcome.Err? ==> r.outcome.error == PromptClosed || r.outcome.error == NoDerivedKey)
  {
  }

  /** Storage after the first loop stopped at position `i`, having deleted every
      user record before it and nothing else. */
  lemma StoppedStorage(disk: Disk, order: seq<string>, removed: set<string>, i: nat)
    requires i < |order| && order[i] !in removed
    requires forall s :: s in removed ==> s in order[..i]
    requires forall j :: 0 <= j < i && IsUserSlot(order[j]) ==> order[j] in removed
    ensures order[i] in disk ==> order[i] in disk - removed
    ensures forall j :: 0 <= j < i && IsUserSlot(order[j]) ==> order[j] !in disk - removed
    ensures forall s :: s in disk && s !in order[..i] ==> s in disk - removed && (disk - removed)[s] == disk[s]
  {
  }

  /** A new passphrase that cannot be set up fails the re-key after the first loop
      has deleted every value: none is left in storage. */
  lemma ReencryptSetupFailure(p: Primitives, st: Store, order: seq<string>, env: Env)
    requires forall s :: s in st.disk <==> s in order
    ensures var r := Reencrypt(p, st, order, env);
            r.outcome.Err? && (r.outcome.error == PromptClosed || r.outcome.error == NoDerivedKey) ==>
              forall s :: IsUserSlot(s) && s in st.disk ==>
                s !in r.store.disk && Decrypt(p, st.key, st.disk[s]).Ok?
  {
    var g := Gather(p, st.key, st.disk, order);
    OutsideNamespace();
  }
}

=== FILE: results.dfy ===
/** Optional values, results and the failure kinds of the encrypted store. */
module Results {

  /** A value that may be absent (`undefined`, `null` or `NaN` in JavaScript). */
  datatype Option<+T> = None | Some(value: T)

  /** The ways an operation of the store or of the crypto layer can fail. */
  datatype Error =
    | NoSuchKey                 // `has` found no entry ("No such key!")
    | NotFound(name: string)    // `get` found neither a cached nor a stored value ("Not found (name)")
    | WrongUserKey              // the unlock callback's verifier check failed ("Wrong key provided by user!")
    | KeyWrong                  // `_decrypt`'s verifier check failed ("Error decrypting: key wrong!")
    | Undecodable               // the cipher layer threw: a missing field, no key, text it cannot decode
    | SaltUnreadable            // the stored salt is not a JSON array of byte values
    | NoDerivedKey              // key derivation resolved without a key and the next cipher call threw
    | MarkerMissing             // the unlock callback found no dummy marker to check against
    | PromptClosed              // the user dismissed the passphrase prompt
    | Unsettled(cause: Error)   // thrown inside a callback whose promise nobody observes:
                                // the caller's promise never settles

  /** The outcome of an operation: a value, or the failure that stopped it. */
  datatype Result<+T> = Ok(value: T) | Err(error: Error)
}

=== FILE: storage.dfy ===
/**
 * The values kept in the extension's local persistent storage, one map from
 * string keys to entries shared by the encrypted store, the salt and the
 * settings. The storage itself (asynchronous get/set/remove) is modelled as
 * this immutable map, updated in the order the operations issue their writes.
 */
module Storage {
  import opened Results

  type Byte = bv8

  datatype Entry =
    /** An object with `nonce` and `verifier` fields and, for a stored value,
        a `data` field; the dummy marker has no `data`. */
    | Record(data: Option<string>, nonce: string, verifier: string)
    /** A JSON array of byte values, the form in which the salt is kept. */
    | Bytes(bytes: seq<Byte>)
    /** Any other text, such as a setting typed in by the user. Numbers,
        booleans and other JSON values are not modelled. */
    | Text(text: string)

  type Disk = map<string, Entry>

  /** `a` and `b` have the same entries, except possibly at the keys in `changed`. */
  ghost predicate AgreeOutside(a: Disk, b: Disk, changed: set<string>) {
    forall s :: s !in changed ==> (s in a <==> s in b) && (s in a ==> a[s] == b[s])
  }

  /** Two writes that each touch only their own keys touch only the keys of both. */
  lemma AgreeOutsideTrans(a: Disk, b: Disk, c: Disk, first: set<string>, second: set<string>)
    requires AgreeOutside(a, b, first) && AgreeOutside(b, c, second)
    ensures AgreeOutside(a, c, first + second)
  {
  }
}

=== FILE: store_properties.dfy ===
/**
 * Properties of the encrypted store that relate several operations: what `set`
 * writes, `get` and `has` see; `delete` touches one key only; and an unlocked
 * session survives every operation, so that after a restart the same
 * passphrase unlocks the same key again.
 */
module StoreProperties {
  import opened Results
  import opened Storage
  import opened Crypto
  import opened LocalSecureStorage
  import opened Reencrypt

  /** The background page starting again: the held key and the cache are lost,
      storage is kept. */
  function Restart(st: Store): Store {
    Store(None, map[], st.disk)
  }

  /** A session unlocked with `passphrase`: the held key is the one the passphrase
      derives from the stored salt, and the stored marker accepts it. */
  ghost predicate Unlocked(p: Primitives, st: Store, passphrase: string) {
    && st.key.Some?
    && KeyDerivedFrom(p, st.disk, passphrase, st.key.value)
    && MarkerAccepts(p, st.disk, st.key.value)
  }

  /** After a `set`, `has` finds the value's key. */
  lemma HasAfterSet(p: Primitives, st: Store, name: string, value: string, env: Env)
    ensures Set(p, st, name, value, env).outcome.Ok? ==> Has(Set(p, st, name, value, env).store, name).Ok?
  {
  }

  /** After a `delete`, `has` no longer finds that key, and answers as before for
      every other name. */
  lemma HasAfterDelete(st: Store, name: string, other: string)
    ensures Has(Delete(st, name), name) == Err(NoSuchKey)
    ensures other != name ==> Has(Delete(st, name), other) == Has(st, other)
  {
    if other != name && Slot(other) == Slot(name) {
      SlotInjective(other, name);
    }
  }

  /** A `get` right after a `set` is served from the cache: it neither prompts nor
      reads storage, whatever the prompt would have answered. */
  lemma SetThenGetHitsCache(p: Primitives, st: Store, name: string, value: string, env: Env, later: Env)
    ensures var s := Set(p, st, name, value, env);
            s.outcome.Ok? ==> Get(p, s.store, name, later) == Step(s.store, Ok(value))
  {
  }

  /** With the cache emptied, `get` decrypts what `set` stored and gives back the
      same value. */
  lemma SetThenGetFromStorage(p: Primitives, st: Store, name: string, value: string, env: Env, later: Env)
    requires RoundTrip(p)
    ensures var s := Set(p, st, name, value, env);
            var cold := s.store.(cache := map[]);
            s.outcome.Ok? ==> Get(p, cold, name, later) == Step(cold, Ok(value))
  {
    var s := Set(p, st, name, value, env);
    if s.outcome.Ok? {
      DecryptSeal(p, s.store.key.value, value, env.itemNonce(name));
    }
  }

  /** `delete` leaves the cache alone, so a value set earlier in the session is
      still returned by `get` after it was deleted from storage. */
  lemma DeleteKeepsCachedValue(p: Primitives, st: Store, name: string, value: string, env: Env, later: Env)
    ensures var s := Set(p, st, name, value, env);
            s.outcome.Ok? ==>
              && Slot(name) !in Delete(s.store, name).disk
              && Get(p, Delete(s.store, name), name, later).outcome == Ok(value)
  {
  }

  /** With a key held, `get` changes nothing, hit or miss. */
  lemma GetWritesNothingWhenReady(p: Primitives, st: Store, name: string, env: Env)
    requires st.key.Some?
    ensures Get(p, st, name, env).store == st
  {
  }

  /** A successful unlock or setup from a locked store leaves an unlocked session. */
  lemma UnlockOpensSession(p: Primitives, st: Store, env: Env)
    requires RoundTrip(p)
    requires st.key.None?
    ensures var r := UnlockStorage(p, st, env);
            r.outcome.Ok? ==> env.answer.Entered? && Unlocked(p, r.store, env.answer.passphrase)
  {
  }

  /** `set` keeps the session unlocked, even when it overwrites the marker under
      its reserved name: the record it writes carries a verifier of the held key. */
  lemma SetKeepsSession(p: Primitives, st: Store, passphrase: string, name: string, value: string, env: Env)
    requires RoundTrip(p)
    requires Unlocked(p, st, passphrase)
    ensures Unlocked(p, Set(p, st, name, value, env).store, passphrase)
  {
    var r := Write(p, st, name, value, env);
    var key := st.key.value;
    assert Set(p, st, name, value, env).store == r;
    OutsideNamespace();
    assert Slot(name) != SaltKey && Slot(name) != RoundsKey;
    assert r.disk[SaltKey] == st.disk[SaltKey];
    RoundsSettingKept(st.disk, r.disk, {Slot(name)});
    assert KeyDerivedFrom(p, r.disk, passphrase, key);
    if Slot(name) == MarkerSlot() {
      var e := Seal(p, key, value, env.itemNonce(name));
      assert r.disk[MarkerSlot()] == e;
      assert CheckVerifier(p, key, Verifier(e.nonce, e.verifier)) == Matches;
    } else {
      assert r.disk[MarkerSlot()] == st.disk[MarkerSlot()];
    }
    assert MarkerAccepts(p, r.disk, key);
  }

  /** `delete` keeps the session unlocked unless it removes the marker itself. */
  lemma DeleteKeepsSession(p: Primitives, st: Store, passphrase: string, name: string)
    requires Unlocked(p, st, passphrase)
    requires name != DummyValueKey
    ensures Unlocked(p, Delete(st, name), passphrase)
  {
    var r := Delete(st, name);
    OutsideNamespace();
    assert Slot(name) != MarkerSlot() by {
      if Slot(name) == MarkerSlot() {
        SlotInjective(name, DummyValueKey);
      }
    }
    assert Slot(name) != SaltKey && Slot(name) != RoundsKey;
    assert r.disk[SaltKey] == st.disk[SaltKey];
    assert r.disk[MarkerSlot()] == st.disk[MarkerSlot()];
    RoundsSettingKept(st.disk, r.disk, {Slot(name)});
    assert KeyDerivedFrom(p, r.disk, passphrase, r.key.value);
  }

  /** After a restart, the passphrase of the session unlocks the same key again,
      without writing anything. */
  lemma RestartUnlocksSameKey(p: Primitives, st: Store, passphrase: string, env: Env)
    requires Unlocked(p, st, passphrase)
    requires env.answer == Entered(passphrase)
    ensures UnlockStorage(p, Restart(st), env) == Step(Store(st.key, map[], st.disk), Ok(()))
  {
  }

  /** A passphrase whose derived key fails the marker check is refused: the store
      stays locked and the caller sees the rejection. */
  lemma WrongPassphraseStaysLocked(p: Primitives, st: Store, passphrase: string, wrong: Key, env: Env)
    requires st.key.None?
    requires env.answer == Entered(passphrase)
    requires MarkerSlot() in st.disk && st.disk[MarkerSlot()].Record?
    requires SaltKey in st.disk && st.disk[SaltKey].Bytes?
    requires Pbkdf2Key(p, passphrase, st.disk[SaltKey].bytes, st.disk) == Some(wrong)
    requires CheckVerifier(p, wrong, Verifier(st.disk[MarkerSlot()].nonce, st.disk[MarkerSlot()].verifier)) == Mismatch
    ensures UnlockStorage(p, st, env) == Step(st, Err(WrongUserKey))
  {
  }

  /** First use: with no marker in storage, the first `set` sets up the passphrase,
      stores the marker and the value, and leaves a session unlocked with it. */
  lemma FirstSetSetsUp(p: Primitives, st: Store, name: string, value: string, env: Env)
    requires RoundTrip(p)
    requires st.key.None? && MarkerSlot() !in st.disk
    requires env.answer.Entered?
    requires Pbkdf2Key(p, env.answer.passphrase, env.salt, st.disk).Some?
    ensures var s := Set(p, st, name, value, env);
            && s.outcome.Ok?
            && MarkerSlot() in s.store.disk
            && Unlocked(p, s.store, env.answer.passphrase)
            && Get(p, s.store.(cache := map[]), name, env).outcome == Ok(value)
  {
    var u := UnlockStorage(p, st, env);
    assert u.outcome.Ok?;
    UnlockOpensSession(p, st, env);
    SetKeepsSession(p, u.store, env.answer.passphrase, name, value, env);
    SetThenGetFromStorage(p, st, name, value, env, env);
  }

  /** A value set in an unlocked session is read back after a restart by unlocking
      with the same passphrase. */
  lemma SetSurvivesRestart(p: Primitives, st: Store, passphrase: string, name: string, value: string, env: Env, later: Env)
    requires RoundTrip(p)
    requires Unlocked(p, st, passphrase)
    requires later.answer == Entered(passphrase)
    ensures var s := Set(p, st, name, value, env);
            Get(p, Restart(s.store), name, later) == Step(Store(st.key, map[], s.store.disk), Ok(value))
  {
    var s := Set(p, st, name, value, env);
    SetKeepsSession(p, st, passphrase, name, value, env);
    RestartUnlocksSameKey(p, s.store, passphrase, later);
    DecryptSeal(p, st.key.value, value, env.itemNonce(name));
  }

  /** After a completed re-key and a restart, the new passphrase unlocks the store
      and reads every old value back (but the one named `__proto__`). */
  lemma ReencryptSurvivesRestart(p: Primitives, st: Store, order: seq<string>, env: Env, s: string, later: Env)
    requires RoundTrip(p)
    requires forall x :: x in st.disk <==> x in order
    requires IsUserSlot(s) && s in st.disk && UserName(s) != ProtoName
    requires later.answer == env.answer
    ensures var r := Reencrypt.Reencrypt(p, st, order, env);
            r.outcome.Ok? ==>
              && Decrypt(p, st.key, st.disk[s]).Ok?
              && Get(p, Restart(r.store), UserName(s), later).outcome == Decrypt(p, st.key, st.disk[s])
  {
    var r := Reencrypt.Reencrypt(p, st, order, env);
    if r.outcome.Ok? {
      ReencryptCarriesOver(p, st, order, env);
      assert Unlocked(p, r.store, env.answer.passphrase);
      RestartUnlocksSameKey(p, r.store, env.answer.passphrase, later);
      SlotOfUserName(s);
    }
  }
}
